=== FILE: README.md ===
# Short-answer quiz with automatic grading — a Dafny model of its rules

The original program is a single-page Streamlit app (`app.py`). It shows one
science question and takes a student ID and a free-text answer. It asks a
language model to grade the answer against a two-signal rubric, stores
the answer and feedback in the MySQL table `DAT1`, and then takes a
follow-up opinion from the student. Most of the file is UI, a connection
pool and a network call. This project models the pure rules inside that glue
and proves what they promise:

- **Student-ID check** (`student_id.dfy`): `validate_student_id`, i.e. a
  non-empty string matching `^\d{5}$` under Python's `re` semantics, with
  `\d` restricted to ASCII. That
  includes the `$` quirk: one trailing `"\n"` is accepted.
- **Reading the language model's reply** (`grading.dfy`): the reply is parsed
  directly, and if that fails, the slice from the first `{` to the last `}`
  is parsed. The safety guard then discards the model's score and derives
  it again from the two `detected` signals: 7, 2 or 0. It rebuilds
  `detected` as exactly two booleans and defaults `reason`/`feedback` to
  `""`.
- **The two writes** (`store.dfy`): `upsert_dat1` (insert or update, with
  `COALESCE` on the opinion) and `update_opinion_only` (an `UPDATE ... WHERE
  id=`), as operations on a `map` from ID to row.
- **The submission flow** (`flow.dfy`): the grading-button and
  opinion-button branches of `main` as a pure transition function. Its state
  is the table plus the session's `last_id`. Each step reports the external
  calls it made and the message it shows.
- Supporting pieces: Python's `str.strip`, `find` and `rfind` (`text.dfy`),
  JSON values with Python truthiness, `dict.get` and `dict.setdefault`
  (`json.dfy`), and `Option`/`Result` (`wrappers.dfy`).

Whatever the model cannot see is an input. The language model's reply text
(or its failure) and the success of each database write are fields of the
event. `json.loads` and `json.dumps` are functions passed in as a `Codec`.

Three behaviours of the code a reader might not expect:

- The ID check also accepts five digits followed by one `"\n"`. That ID is
  stripped before it is stored, so within the model every stored ID is
  still exactly five ASCII digits (`Flow.NextPreservesWellFormed`).
- Each opinion save overwrites the previous one, any number of times.
- The guard raises when the reply is not a JSON object, or when its
  `detected` is present but not an object (for example `null`). The model
  reports those as grading failures.

## Model

| member | source | states |
|---|---|---|
| `StudentId.ValidateStudentIdSpec` | app.py:49-51 | the validator accepts exactly five ASCII digits, optionally followed by one "\n" (Python's `$`); it rejects the empty string, other lengths and non-digits |
| `StudentId.MatchDigitsSpec` | app.py:17 | the `\d{5}` part of `ID_REGEX` succeeds from a position exactly when the next five characters exist and are digits, and it ends five characters later |
| `StudentId.StripValidId` | app.py:281 | stripping an accepted ID yields exactly its five digits, and the result is still accepted |
| `StudentId.ValidateStudentIdExamples` | app.py:241 | "10130" and "10130\n" are accepted; "1013", " 10130", "10130 ", "10130\n\n" and "1a130" are rejected |
| `Text.Strip` | app.py:249 | `str.strip()` returns the slice of the input between its leading and trailing whitespace; the result neither starts nor ends with whitespace; it is empty exactly when the input is all whitespace |
| `Text.StripOfPadded` | app.py:282 | stripping whitespace padding from a trimmed text gives that text back, so `strip` is determined by its contract |
| `Text.StripIdempotent` | app.py:313 | stripping an already stripped text changes nothing |
| `Text.Find` | app.py:201 | `content.find("{")` is -1 when there is no "{", and otherwise the index of the first "{" |
| `Text.RFind` | app.py:201 | `content.rfind("}")` is -1 when there is no "}", and otherwise the index of the last "}" |
| `Json.SetDefault` | app.py:212 | `setdefault` keeps a present key's value and adds a missing key with the default; other keys are unchanged |
| `Grading.DerivedScore` | app.py:210 | the derived score is 7 exactly when both signals hold, 2 exactly when one holds (XOR), 0 exactly when neither holds, and never more than `max_score` 7 |
| `Grading.BraceSlice` | app.py:200-205 | a slice exists exactly when some "{" precedes some "}"; it starts at the first "{", ends with the last "}", and is a contiguous slice of the reply that begins with "{" and ends with "}" |
| `Grading.BraceSliceOfWrapped` | app.py:201-203 | prose before an object (with no "{") and after it (with no "}") does not change the slice: it is exactly the object's text |
| `Grading.ParseReply` | app.py:197-205 | a reply that parses is used as is; otherwise the brace slice is parsed; no slice gives the parse error, and an unparseable slice gives the decode error |
| `Grading.ParseReplyOfWrapped` | app.py:198-203 | a reply made of one object wrapped in prose is read as that object |
| `Grading.ParseReplyWithoutBraces` | app.py:204-205 | a reply that does not parse and lacks either brace fails with the parse error |
| `Grading.Normalise` | app.py:207-214 | the guard fails when the reply or its `detected` is not a dict. Otherwise the score is the derived one, `detected` is exactly the two boolean signals, `reason`/`feedback` are kept or set to "", and every other key passes through unchanged |
| `Grading.NormaliseIgnoresModelScore` | app.py:211 | the guard's output is the same whatever `score` the model sent, or if it sent none |
| `Grading.NormaliseIdempotent` | app.py:208-213 | applying the guard to its own output changes nothing |
| `Grading.GradeResultScoreBounded` | app.py:31 | every graded score is one of 0, 2 and 7, so it never exceeds `max_score` |
| `Grading.GradeReply` | app.py:197-214 | grading a reply text is the guard applied to what the stripped text parses to (directly or through the brace slice); a parse failure is passed on with its own error, and a success satisfies the guard's guarantees |
| `Grading.GradeReplyIgnoresModelScore` | app.py:207-211 | two replies that read as the same object up to its `score` grade identically, and the graded score is the one derived from the reply's own `detected` signals |
| `Grading.Grade` | app.py:184-195 | a failed service call is a grading failure, and a successful one is graded from its reply text |
| `Grading.Payload` | app.py:272-278 | the stored payload has exactly the keys score, max, reason, feedback and detected; max is 7, and for a graded result the other four are copied from it |
| `Store.Upsert` | app.py:100-120 | a fresh ID gets a row as given; an existing row gets the new answer and feedback, and keeps its opinion when the new one is absent or takes the new one (even ""); no other row changes |
| `Store.UpdateOpinion` | app.py:122-131 | only the matching row's opinion changes, and its answer and feedback stay; a missing ID leaves the table unchanged; no row is added |
| `Store.UpsertIdempotent` | app.py:107-114 | repeating an upsert leaves the table as a single upsert does |
| `Store.UpdateOpinionIdempotent` | app.py:126 | repeating an opinion update leaves the table as a single update does |
| `Store.ResubmitKeepsOpinion` | app.py:112 | after any number of re-submissions with the opinion absent, a row keeps its opinion and holds the last answer and feedback; other rows are untouched |
| `Store.UpdateOpinionCommutesWithResubmit` | app.py:107-126 | for an existing row, saving an opinion and re-submitting commute |
| `Store.OpinionBeforeFirstSubmissionIsLost` | app.py:126 | an opinion saved before a row exists is dropped, while one saved after the first submission sticks |
| `Flow.SubmitAnswerStep` | app.py:245-289 | an invalid ID or a blank answer makes no call and changes nothing. Otherwise the stripped answer is graded; a failed grade makes exactly that one call and nothing else; only a successful grade is upserted under the stripped ID with the opinion absent; a failed write leaves the state unchanged after exactly those two calls; only a successful write changes the table and sets `last_id` to the stripped ID |
| `Flow.SubmitOpinionStep` | app.py:306-318 | a blank opinion or an invalid ID (the session's, or the typed one when the session has none) makes no call and changes nothing. Otherwise exactly one opinion update is made with the stripped ID and opinion; only its success changes the table and clears `last_id`, and a failed update reports the save failure |
| `Flow.NextPreservesWellFormed` | app.py:280-287 | every rerun keeps all stored IDs and the session ID at exactly five ASCII digits, and every write it makes uses such an ID |
| `Flow.RunPreservesWellFormed` | app.py:245-318 | any sequence of reruns from a well-formed state stays well formed |
| `Flow.AnswersKeepOpinions` | app.py:284 | across any sequence of answer submissions, no row disappears and every row keeps its opinion |
| `Flow.ScenarioEvaporationOnly` | app.py:245-315 | student 10130 answering with only evaporation detected is graded 2 and saved with no opinion; a later opinion is stored without touching the answer or feedback, and `last_id` is cleared |
| `Flow.BlankAnswerChangesNothing` | app.py:249-251 | a whitespace-only answer makes no grading call and writes nothing |

## Left out

- StudentId.IsAsciiDigit: `\d` is restricted to ASCII '0'..'9'. Python's `\d` on a `str` also matches every other Unicode decimal digit (for example Arabic-Indic digits), and the model rejects those IDs.
- Streamlit rendering (the page layout, the question and image display, spinners, the text of every message, clearing `opinion_text`): UI with no contract. Each step reports only which kind of message it shows.
- The MySQL connection pool, borrowing and returning connections, and `init_tables` (the DDL): I/O through a library the model does not see. Whether a write succeeds is a free input of the event.
- Flow.SubmitAnswerStep and Flow.SubmitOpinionStep do not model a write that took effect but is reported as failed: the pool autocommits, so the row is written once `cur.execute` returns, yet a `MySQLError` from the `cur.close()`/`conn.close()` that follow reports a failed save (the answer branch then leaves `last_id` unset, the opinion branch leaves it set). In the model a failed write never changes the table. A statement that raises also skips `conn.close()`, so that connection never goes back to the five-connection pool and later writes can fail because of earlier ones; the free write outcome covers this.
- The `time` column, which the server sets on insert and whenever an update changes a column: a clock.
- The column collation (`utf8mb4_unicode_ci`) and the `VARCHAR(16)` limit: the store is keyed by exact string equality. The collation is dropped together with the Unicode-digit case: an ID such as the fullwidth "１０１３０" passes the source's check and might compare equal to "10130" on the primary key, but the model's ASCII-only check never admits it, so `Flow.NextPreservesWellFormed` speaks only of the model.
- JSON objects are unordered maps (`Json.Value.Obj`). Python dictionaries keep key order, so `json.dumps` of the payload, or of a nested object inside `reason`/`feedback`, can differ in key order in ways the supplied `dumps` function cannot reproduce from a map.
- The OpenAI client call, its retry without optional parameters, the API-key and model-name lookup, and the prompt text in `build_messages`: a network call and fixed text. The model takes only the call's outcome, either a reply text or a failure.
- `json.loads` and `json.dumps`: library code, passed in as functions. JSON numbers are reals, so the model does not distinguish `int` from `float`, and `NaN`/`Infinity` literals are not modelled.
- A reply whose `message.content` is `None`: in the source this raises in `.strip()` and is reported as a grading failure. The model has no such reply text; the same outcome is a failed call.
- Exceptions other than `MySQLError` from the two writes: they would abort the page rather than show a message. The model has one kind of write failure.
- Reruns in which no button is pressed: they change nothing and are not events.
- Other browser sessions: the state is this session's `last_id` plus the shared table, and writes other sessions make to the table between this session's reruns are not events.

=== FILE: flow.dfy ===
/** The two form submissions of `main` as a state machine. Each Streamlit
    rerun handles one event: a press of the grading button or of the opinion
    button (only the pressed button reads as true in a rerun). The state is
    the table and the session's `last_id`. What the outside world answers is
    part of the event: the language model's reply text (or `None` when the
    call raised) and whether the database write went through. Each step
    reports the external calls it made and the message it shows. */
module Flow {
  import opened Wrappers
  import opened Text
  import opened Json
  import opened StudentId
  import opened Grading
  import opened Store

  /** The table and `st.session_state["last_id"]` (`None` when the key is
      absent). */
  datatype State = State(table: Table, lastId: Option<string>)

  /** One rerun with a button pressed.
      `SubmitAnswer`: the ID and answer fields, the reply text the grading
      service returns for this answer (`None` if the call raises), and
      whether the upsert succeeds.
      `SubmitOpinion`: the opinion field, the fallback ID field shown when
      the session holds no ID, and whether the update succeeds. */
  datatype Event =
    | SubmitAnswer(sid: string, answer: string, reply: Option<string>, writeOk: bool)
    | SubmitOpinion(opinion: string, typedSid: string, writeOk: bool)

  /** A call to code outside the model: one invocation of
      `grade_with_openai` (which may fail before it contacts the service, for
      example when no API key is configured), or one of the two database
      writes. */
  datatype Call =
    | GradeCall(answer: string)
    | UpsertCall(id: string, answer: string, feedback: string, opinion: Option<string>)
    | UpdateOpinionCall(id: string, newOpinion: string)

  /** The message the page shows after the event. */
  datatype Notice =
    | InvalidId
    | BlankAnswer
    | GradingFailed
    | Saved
    | SaveFailed
    | BlankOpinion
    | OpinionSaved
    | OpinionSaveFailed

  /** What one event did: the state after it, the external calls it made in
      order, and the message it showed. */
  datatype Step = Step(state: State, calls: seq<Call>, notice: Notice)

  /** The two functions the model cannot see: `json.loads` (`None` for a
      decode error) and `json.dumps` of the feedback payload. */
  datatype Codec = Codec(parse: string -> Option<Value>, dumps: Value -> string)

  /** The grading-button branch of `main`. The ID is checked first, then the
      answer; either failing stops with nothing called. Then the stripped
      answer is graded; a failure stops with nothing saved. Then the payload
      is upserted under the stripped ID with the opinion absent; only when
      that succeeds is `last_id` set. */
  function SubmitAnswerStep(s: State, sid: string, answer: string, reply: Option<string>, writeOk: bool, codec: Codec): (r: Step)
    ensures !ValidateStudentId(sid) ==> r == Step(s, [], InvalidId)
    ensures ValidateStudentId(sid) && IsBlank(answer) ==> r == Step(s, [], BlankAnswer)
    ensures r.calls != [] <==> ValidateStudentId(sid) && !IsBlank(answer)
    ensures r.calls != [] ==> r.calls[0] == GradeCall(Strip(answer))
    ensures r.notice != Saved ==> r.state == s
    ensures r.notice == Saved <==>
      ValidateStudentId(sid) && !IsBlank(answer) && Grade(reply, codec.parse).Success? && writeOk
    ensures ValidateStudentId(sid) && !IsBlank(answer) && Grade(reply, codec.parse).Failure? ==>
      r == Step(s, [GradeCall(Strip(answer))], GradingFailed)
    ensures ValidateStudentId(sid) && !IsBlank(answer) && Grade(reply, codec.parse).Success? && !writeOk ==>
      var feedback := codec.dumps(Payload(Grade(reply, codec.parse).value));
      r == Step(s, [GradeCall(Strip(answer)), UpsertCall(Strip(sid), Strip(answer), feedback, None)], SaveFailed)
    ensures r.notice == Saved ==>
      var feedback := codec.dumps(Payload(Grade(reply, codec.parse).value));
      && r.calls == [GradeCall(Strip(answer)), UpsertCall(Strip(sid), Strip(answer), feedback, None)]
      && r.state == State(Upsert(s.table, Strip(sid), Strip(answer), feedback, None), Some(Strip(sid)))
  {
    if !ValidateStudentId(sid) then Step(s, [], InvalidId)
    else if IsBlank(answer) then Step(s, [], BlankAnswer)
    else
      var a := Strip(answer);
      var grade := Grade(reply, codec.parse);
      if grade.Failure? then Step(s, [GradeCall(a)], GradingFailed)
      else
        var id := Strip(sid);
        var feedback := codec.dumps(Payload(grade.value));
        var calls := [GradeCall(a), UpsertCall(id, a, feedback, None)];
        if !writeOk then Step(s, calls, SaveFailed)
        else Step(State(Upsert(s.table, id, a, feedback, None), Some(id)), calls, Saved)
  }

  /** `if not last_id`: the session's ID when it holds a non-empty one,
      otherwise the fallback field the page then shows. */
  function OpinionId(lastId: Option<string>, typedSid: string): string {
    match lastId
    case Some(id) => if |id| > 0 then id else typedSid
    case None => typedSid
  }

  /** The opinion-button branch of `main`. A blank opinion is rejected
      first, then an invalid ID; either way nothing is called. Otherwise one
      opinion update is made with the stripped ID and opinion, and only when
      it succeeds is `last_id` cleared. */
  function SubmitOpinionStep(s: State, opinion: string, typedSid: string, writeOk: bool): (r: Step)
    ensures IsBlank(opinion) ==> r == Step(s, [], BlankOpinion)
    ensures !IsBlank(opinion) && !ValidateStudentId(OpinionId(s.lastId, typedSid)) ==> r == Step(s, [], InvalidId)
    ensures r.calls != [] <==> !IsBlank(opinion) && ValidateStudentId(OpinionId(s.lastId, typedSid))
    ensures r.calls != [] ==> r.calls == [UpdateOpinionCall(Strip(OpinionId(s.lastId, typedSid)), Strip(opinion))]
    ensures r.notice != OpinionSaved ==> r.state == s
    ensures r.notice == OpinionSaved <==> r.calls != [] && writeOk
    ensures r.calls != [] && !writeOk ==> r.notice == OpinionSaveFailed
    ensures r.notice == OpinionSaved ==>
      r.state == State(UpdateOpinion(s.table, Strip(OpinionId(s.lastId, typedSid)), Strip(opinion)), None)
  {
    var sid := OpinionId(s.lastId, typedSid);
    if IsBlank(opinion) then Step(s, [], BlankOpinion)
    else if !ValidateStudentId(sid) then Step(s, [], InvalidId)
    else
      var id := Strip(sid);
      var o := Strip(opinion);
      var calls := [UpdateOpinionCall(id, o)];
      if !writeOk then Step(s, calls, OpinionSaveFailed)
      else Step(State(UpdateOpinion(s.table, id, o), None), calls, OpinionSaved)
  }

  /** One rerun of `main` with a button pressed. */
  function Next(s: State, e: Event, codec: Codec): Step {
    match e
    case SubmitAnswer(sid, answer, reply, writeOk) => SubmitAnswerStep(s, sid, answer, reply, writeOk, codec)
    case SubmitOpinion(opinion, typedSid, writeOk) => SubmitOpinionStep(s, opinion, typedSid, writeOk)
  }

  /** The state after a sequence of reruns. */
  function Run(s: State, events: seq<Event>, codec: Codec): State
    decreases |events|
  {
    if |events| == 0 then s
    else Run(Next(s, events[0], codec).state, events[1..], codec)
  }

  /** Every ID that reaches the table or the session is exactly five ASCII
      digits (the student-ID check here admits no other digits). */
  predicate WellFormed(s: State) {
    && (forall k :: k in s.table ==> IsFiveDigits(k))
    && (s.lastId.Some? ==> IsFiveDigits(s.lastId.value))
  }

  /** Each rerun keeps the state well formed, and every database write it
      makes names a five-digit ID. */
  lemma NextPreservesWellFormed(s: State, e: Event, codec: Codec)
    requires WellFormed(s)
    ensures WellFormed(Next(s, e, codec).state)
    ensures forall c :: c in Next(s, e, codec).calls && c.UpsertCall? ==> IsFiveDigits(c.id)
    ensures forall c :: c in Next(s, e, codec).calls && c.UpdateOpinionCall? ==> IsFiveDigits(c.id)
  {
    match e
    case SubmitAnswer(sid, answer, reply, writeOk) =>
      if ValidateStudentId(sid) {
        StripValidId(sid);
      }
    case SubmitOpinion(opinion, typedSid, writeOk) =>
      var sid := OpinionId(s.lastId, typedSid);
      if ValidateStudentId(sid) {
        StripValidId(sid);
      }
  }

  /** Any sequence of reruns from a well-formed state (the empty table with
      no session ID is one) stays well formed. */
  lemma {:induction false} RunPreservesWellFormed(s: State, events: seq<Event>, codec: Codec)
    requires WellFormed(s)
    ensures WellFormed(Run(s, events, codec))
    decreases |events|
  {
    if |events| > 0 {
      NextPreservesWellFormed(s, events[0], codec);
      RunPreservesWellFormed(Next(s, events[0], codec).state, events[1..], codec);
    }
  }

  /** Grading reruns never erase an opinion: across any sequence of answer
      submissions, every row keeps its opinion, and no row disappears. */
  lemma {:induction false} AnswersKeepOpinions(s: State, events: seq<Event>, codec: Codec)
    requires forall i :: 0 <= i < |events| ==> events[i].SubmitAnswer?
    ensures s.table.Keys <= Run(s, events, codec).table.Keys
    ensures forall k :: k in s.table ==> Run(s, events, codec).table[k].opinion == s.table[k].opinion
    decreases |events|
  {
    if |events| > 0 {
      var t := Next(s, events[0], codec).state;
      AnswersKeepOpinions(t, events[1..], codec);
    }
  }

  /** A walk-through: student 10130 answers mentioning only
      evaporation, is graded 2 and saved with no opinion, then submits an
      opinion, which is stored without touching the answer or the feedback,
      and the session forgets the ID. */
  lemma ScenarioEvaporationOnly(codec: Codec, reply: string, answer: string, opinion: string)
    requires !IsBlank(answer)
    requires !IsBlank(opinion)
    requires codec.parse(Strip(reply)) == Some(Obj(map[
      DetectedKey := Obj(map[EvaporationKey := Bool(true), HeatAbsorbKey := Bool(false)]),
      ScoreKey := Num(7.0)]))
    ensures var s0 := State(map[], None);
      var s1 := Next(s0, SubmitAnswer("10130", answer, Some(reply), true), codec);
      var s2 := Next(s1.state, SubmitOpinion(opinion, "", true), codec);
      && s1.notice == Saved
      && Grade(Some(reply), codec.parse).value.fields[ScoreKey] == Num(2.0)
      && s1.state.table.Keys == {"10130"}
      && s1.state.table["10130"].answer == Strip(answer)
      && s1.state.table["10130"].opinion == None
      && s1.state.lastId == Some("10130")
      && s2.notice == OpinionSaved
      && s2.calls == [UpdateOpinionCall("10130", Strip(opinion))]
      && s2.state.table["10130"] == s1.state.table["10130"].(opinion := Some(Strip(opinion)))
      && s2.state.lastId == None
  {
    ValidateStudentIdExamples();
    StripValidId("10130");
    assert "10130"[..IdLength] == "10130";
    var data := codec.parse(Strip(reply)).value;
    assert DetectedOf(data.fields).fields[EvaporationKey] == Bool(true);
    assert Signal(DetectedOf(data.fields).fields, EvaporationKey);
    assert !Signal(DetectedOf(data.fields).fields, HeatAbsorbKey);
    var s1 := Next(State(map[], None), SubmitAnswer("10130", answer, Some(reply), true), codec);
    assert s1.notice == Saved && s1.state.lastId == Some("10130");
    assert OpinionId(s1.state.lastId, "") == "10130";
  }

  /** A blank answer makes no grading call and
      writes nothing, whatever the ID. */
  lemma BlankAnswerChangesNothing(s: State, sid: string, answer: string, reply: Option<string>, writeOk: bool, codec: Codec)
    requires AllSpace(answer)
    ensures Next(s, SubmitAnswer(sid, answer, reply, writeOk), codec).calls == []
    ensures Next(s, SubmitAnswer(sid, answer, reply, writeOk), codec).state == s
  {
  }
}

=== FILE: grading.dfy ===
/** The deterministic half of `grade_with_openai`: reading the language
    model's reply (a direct parse, then the brace-slice fallback) and the
    safety guard that throws the model's own score away and derives it again
    from the two rubric signals. The call to the service is not modelled: its
    reply text is an input, and JSON parsing is a function `parse` supplied by
    the caller that stands for `json.loads` (`None` for a `JSONDecodeError`). */
module Grading {
  import opened Wrappers
  import opened Text
  import opened Json

  /** `SCORING_RULES["max_score"]`: both rubric signals present. */
  const MaxScore: nat := 7
  /** `SCORING_RULES["partial_score"]`: exactly one rubric signal present. */
  const PartialScore: nat := 2

  const ScoreKey: string := "score"
  const MaxKey: string := "max"
  const ReasonKey: string := "reason"
  const FeedbackKey: string := "feedback"
  const DetectedKey: string := "detected"
  const EvaporationKey: string := "evaporation"
  const HeatAbsorbKey: string := "heat_absorb"

  /** Why grading raised: the service call itself failed (no API key, an
      error on a first call that is not retried, or on the one retry), the
      reply had no parseable
      object (the `RuntimeError`), the brace slice did not parse either (the
      second `JSONDecodeError`), or the parsed value had no `.get` where the
      guard calls it (an `AttributeError`). */
  datatype GradeError = ServiceFailed | NoJsonObject | MalformedSlice | ReplyNotAnObject | DetectedNotAnObject

  /** The score the guard assigns to the two signals: the maximum for both,
      the partial score for exactly one, nothing for neither. */
  function DerivedScore(evaporation: bool, heatAbsorb: bool): (score: nat)
    ensures score == MaxScore <==> evaporation && heatAbsorb
    ensures score == PartialScore <==> evaporation != heatAbsorb
    ensures score == 0 <==> !evaporation && !heatAbsorb
    ensures score <= MaxScore
  {
    if evaporation && heatAbsorb then 7
    else if evaporation != heatAbsorb then 2
    else 0
  }

  /** The fallback extractor: the slice from the first "{" to the last "}",
      taken only when both exist and the "}" comes after the "{". It exists
      exactly when some "{" precedes some "}", and it is the widest such
      slice: no "{" before it and no "}" after it. */
  function BraceSlice(content: string): (r: Option<string>)
    ensures r.Some? <==>
      exists i, j :: 0 <= i < j < |content| && content[i] == '{' && content[j] == '}'
    ensures r.Some? ==>
      && |r.value| >= 2 && r.value[0] == '{' && r.value[|r.value| - 1] == '}'
      && Find(content, '{') + |r.value| <= |content|
      && r.value == content[Find(content, '{')..Find(content, '{') + |r.value|]
      && (forall k :: 0 <= k < Find(content, '{') ==> content[k] != '{')
      && (forall k :: Find(content, '{') + |r.value| <= k < |content| ==> content[k] != '}')
  {
    var start := Find(content, '{');
    var end := RFind(content, '}');
    if start >= 0 && end > start then
      var t := content[start..end + 1];
      assert t[0] == content[start];
      assert t[|t| - 1] == content[end];
      Some(t)
    else
      assert forall i, j :: 0 <= i < j < |content| && content[i] == '{' ==> content[j] != '}' by {
        forall i, j | 0 <= i < j < |content| && content[i] == '{'
          ensures content[j] != '}'
        {
          assert start >= 0;
          assert start <= i;
        }
      }
      None
  }

  /** Prose around a single object does not disturb the fallback: with no
      "{" in the text before it and no "}" in the text after it, the
      extracted slice is exactly the object's text. */
  lemma BraceSliceOfWrapped(prefix: string, body: string, suffix: string)
    requires forall k :: 0 <= k < |prefix| ==> prefix[k] != '{'
    requires forall k :: 0 <= k < |suffix| ==> suffix[k] != '}'
    requires |body| >= 2 && body[0] == '{' && body[|body| - 1] == '}'
    ensures BraceSlice(prefix + body + suffix) == Some(body)
  {
    var s := prefix + body + suffix;
    assert s[|prefix|] == '{';
    assert s[|prefix| + |body| - 1] == '}';
    var r := BraceSlice(s);
    assert Find(s, '{') == |prefix|;
    assert |r.value| == |body|;
    assert s[|prefix|..|prefix| + |body|] == body;
  }

  /** Turning the reply text into a value: `json.loads(content)`, and when
      that fails the brace slice, parsed again. */
  function ParseReply(content: string, parse: string -> Option<Value>): (r: Result<Value, GradeError>)
    ensures parse(content).Some? ==> r == Success(parse(content).value)
    ensures parse(content).None? && BraceSlice(content).None? ==> r == Failure(NoJsonObject)
    ensures parse(content).None? && BraceSlice(content).Some? ==>
      r == (if parse(BraceSlice(content).value).Some? then Success(parse(BraceSlice(content).value).value)
            else Failure(MalformedSlice))
  {
    match parse(content)
    case Some(data) => Success(data)
    case None =>
      match BraceSlice(content)
      case None => Failure(NoJsonObject)
      case Some(slice) =>
        match parse(slice)
        case Some(data) => Success(data)
        case None => Failure(MalformedSlice)
  }

  /** A reply that does not parse as a whole but is one object wrapped in
      prose is read as that object; a reply with no "{" before a "}" fails
      with the parse error. */
  lemma ParseReplyOfWrapped(prefix: string, body: string, suffix: string, parse: string -> Option<Value>)
    requires forall k :: 0 <= k < |prefix| ==> prefix[k] != '{'
    requires forall k :: 0 <= k < |suffix| ==> suffix[k] != '}'
    requires |body| >= 2 && body[0] == '{' && body[|body| - 1] == '}'
    requires parse(prefix + body + suffix).None? && parse(body).Some?
    ensures ParseReply(prefix + body + suffix, parse) == Success(parse(body).value)
  {
    BraceSliceOfWrapped(prefix, body, suffix);
  }

  /** Without any "{" or without any "}" the fallback has nothing to take,
      so a reply that does not parse directly fails with the parse error. */
  lemma ParseReplyWithoutBraces(content: string, parse: string -> Option<Value>)
    requires (forall k :: 0 <= k < |content| ==> content[k] != '{')
          || (forall k :: 0 <= k < |content| ==> content[k] != '}')
    requires parse(content).None?
    ensures ParseReply(content, parse) == Failure(NoJsonObject)
  {
  }

  /** `data.get("detected", {})`, before the guard checks it is a dict. */
  function DetectedOf(fields: map<string, Value>): Value {
    Get(fields, DetectedKey, Obj(map[]))
  }

  /** `bool(det.get(key))` for one rubric signal. */
  function Signal(det: map<string, Value>, key: string): bool {
    Truthy(Get(det, key, Null))
  }

  /** The guard's `detected` dictionary: exactly the two signals, as booleans. */
  function DetectedFlags(evaporation: bool, heatAbsorb: bool): Value {
    Obj(map[EvaporationKey := Bool(evaporation), HeatAbsorbKey := Bool(heatAbsorb)])
  }

  /** What the guard guarantees of the value `grade_with_openai` returns: an
      object whose `detected` holds exactly two booleans, whose `score` is the
      one those booleans determine, and which has a `reason` and a
      `feedback`. */
  predicate IsGradeResult(v: Value) {
    && v.Obj?
    && ScoreKey in v.fields && DetectedKey in v.fields
    && ReasonKey in v.fields && FeedbackKey in v.fields
    && var d := v.fields[DetectedKey];
       && d.Obj? && d.fields.Keys == {EvaporationKey, HeatAbsorbKey}
       && d.fields[EvaporationKey].Bool? && d.fields[HeatAbsorbKey].Bool?
       && v.fields[ScoreKey]
          == Num(DerivedScore(d.fields[EvaporationKey].b, d.fields[HeatAbsorbKey].b) as real)
  }

  /** The safety guard. It fails where Python would raise because the reply
      or its `detected` is not a dict. Otherwise the score becomes the derived
      one whatever the model sent, `detected` is rebuilt from the truthiness
      of the two signals, a missing `reason` or `feedback` becomes "", and
      every other key of the reply is passed through unchanged. */
  function Normalise(data: Value): (r: Result<Value, GradeError>)
    ensures r.Success? <==> data.Obj? && DetectedOf(data.fields).Obj?
    ensures data.Obj? && !DetectedOf(data.fields).Obj? ==> r == Failure(DetectedNotAnObject)
    ensures !data.Obj? ==> r == Failure(ReplyNotAnObject)
    ensures r.Success? ==>
      && IsGradeResult(r.value)
      && var det := DetectedOf(data.fields).fields;
         && r.value.fields.Keys == data.fields.Keys + {ScoreKey, ReasonKey, FeedbackKey, DetectedKey}
         && r.value.fields[ScoreKey]
            == Num(DerivedScore(Signal(det, EvaporationKey), Signal(det, HeatAbsorbKey)) as real)
         && r.value.fields[DetectedKey] == DetectedFlags(Signal(det, EvaporationKey), Signal(det, HeatAbsorbKey))
         && r.value.fields[ReasonKey] == Get(data.fields, ReasonKey, Str(""))
         && r.value.fields[FeedbackKey] == Get(data.fields, FeedbackKey, Str(""))
         && forall k :: k in data.fields && k !in {ScoreKey, ReasonKey, FeedbackKey, DetectedKey} ==>
              r.value.fields[k] == data.fields[k]
  {
    if !data.Obj? then Failure(ReplyNotAnObject)
    else
      var det := DetectedOf(data.fields);
      if !det.Obj? then Failure(DetectedNotAnObject)
      else
        var e := Signal(det.fields, EvaporationKey);
        var h := Signal(det.fields, HeatAbsorbKey);
        var withScore := data.fields[ScoreKey := Num(DerivedScore(e, h) as real)];
        var withText := SetDefault(SetDefault(withScore, ReasonKey, Str("")), FeedbackKey, Str(""));
        var flags := DetectedFlags(e, h);
        assert flags.fields.Keys == {EvaporationKey, HeatAbsorbKey};
        Success(Obj(withText[DetectedKey := flags]))
  }

  /** Whatever `score` the model put in its reply, the guard's answer is the
      same: the incoming score is never read. */
  lemma NormaliseIgnoresModelScore(fields: map<string, Value>, modelScore: Value)
    ensures Normalise(Obj(fields[ScoreKey := modelScore])) == Normalise(Obj(fields))
  {
    var a := Normalise(Obj(fields[ScoreKey := modelScore]));
    var b := Normalise(Obj(fields));
    assert DetectedOf(fields[ScoreKey := modelScore]) == DetectedOf(fields);
    if a.Success? {
      assert a.value.fields == b.value.fields;
    }
  }

  /** Applying the guard to its own output changes nothing: a normalised
      reply is a fixed point. */
  lemma NormaliseIdempotent(data: Value)
    requires Normalise(data).Success?
    ensures Normalise(Normalise(data).value) == Normalise(data)
  {
    var g := Normalise(data).value;
    var g2 := Normalise(g);
    var det := g.fields[DetectedKey].fields;
    assert DetectedOf(g.fields).fields == det;
    assert Signal(det, EvaporationKey) == det[EvaporationKey].b;
    assert Signal(det, HeatAbsorbKey) == det[HeatAbsorbKey].b;
    assert g2.value.fields == g.fields;
  }

  /** The score of every graded reply is one of 0, the partial score and the
      maximum, and never exceeds the maximum. */
  lemma GradeResultScoreBounded(v: Value)
    requires IsGradeResult(v)
    ensures v.fields[ScoreKey] in {Num(0.0), Num(PartialScore as real), Num(MaxScore as real)}
    ensures v.fields[ScoreKey].n <= MaxScore as real
  {
  }

  /** The deterministic part of `grade_with_openai` for one reply text:
      strip it, parse it (with the fallback) and apply the guard. */
  function GradeReply(reply: string, parse: string -> Option<Value>): (r: Result<Value, GradeError>)
    ensures r.Success? ==> IsGradeResult(r.value)
    ensures r.Success? <==>
      ParseReply(Strip(reply), parse).Success? && Normalise(ParseReply(Strip(reply), parse).value).Success?
    ensures ParseReply(Strip(reply), parse).Success? ==> r == Normalise(ParseReply(Strip(reply), parse).value)
    ensures ParseReply(Strip(reply), parse).Failure? ==> r == Failure(ParseReply(Strip(reply), parse).error)
  {
    var data :- ParseReply(Strip(reply), parse);
    Normalise(data)
  }

  /** Two replies that read (directly or through the brace slice) as the
      same object up to its `score` are graded identically: the score a
      graded reply carries comes from its own `detected` signals, never from
      the number the model wrote. */
  lemma GradeReplyIgnoresModelScore(reply: string, otherReply: string, parse: string -> Option<Value>,
                                    fields: map<string, Value>, modelScore: Value)
    requires ParseReply(Strip(reply), parse) == Success(Obj(fields))
    requires ParseReply(Strip(otherReply), parse) == Success(Obj(fields[ScoreKey := modelScore]))
    ensures GradeReply(otherReply, parse) == GradeReply(reply, parse)
    ensures GradeReply(reply, parse).Success? ==>
      var det := DetectedOf(fields).fields;
      GradeReply(reply, parse).value.fields[ScoreKey]
        == Num(DerivedScore(Signal(det, EvaporationKey), Signal(det, HeatAbsorbKey)) as real)
  {
    NormaliseIgnoresModelScore(fields, modelScore);
  }

  /** The feedback payload `main` stores for a grade: the score, the maximum,
      the reason and feedback texts and the signal flags, each read with the
      defaults `main` uses. */
  function Payload(grade: Value): (p: Value)
    requires grade.Obj?
    ensures p.Obj? && p.fields.Keys == {ScoreKey, MaxKey, ReasonKey, FeedbackKey, DetectedKey}
    ensures p.fields[MaxKey] == Num(MaxScore as real)
    ensures IsGradeResult(grade) ==>
      && p.fields[ScoreKey] == grade.fields[ScoreKey]
      && p.fields[DetectedKey] == grade.fields[DetectedKey]
      && p.fields[ReasonKey] == grade.fields[ReasonKey]
      && p.fields[FeedbackKey] == grade.fields[FeedbackKey]
  {
    Obj(map[
      ScoreKey := Get(grade.fields, ScoreKey, Num(0.0)),
      MaxKey := Num(MaxScore as real),
      ReasonKey := Get(grade.fields, ReasonKey, Str("")),
      FeedbackKey := Get(grade.fields, FeedbackKey, Str("")),
      DetectedKey := Get(grade.fields, DetectedKey, Obj(map[]))
    ])
  }

  /** `grade_with_openai` with the service call as an input: `None` when the
      call raised, otherwise the reply text it returned. */
  function Grade(reply: Option<string>, parse: string -> Option<Value>): (r: Result<Value, GradeError>)
    ensures reply.None? ==> r == Failure(ServiceFailed)
    ensures reply.Some? ==> r == GradeReply(reply.value, parse)
    ensures r.Success? ==> IsGradeResult(r.value)
  {
    match reply
    case None => Failure(ServiceFailed)
    case Some(content) => GradeReply(content, parse)
  }
}

=== FILE: json.dfy ===
/** The JSON values that `json.loads` hands to the grading code, as Python objects:
    `None`, `bool`, a number, `str`, `list` and `dict`. Parsing and
    serialisation themselves are not modelled; they appear as functions the
    caller supplies. */
module Json {

  /** A parsed JSON value. Numbers are kept as reals, so an integer and a
      float with the same value are the same number here. An object is a
      dictionary: a key occurs at most once. */
  datatype Value =
    | Null
    | Bool(b: bool)
    | Num(n: real)
    | Str(s: string)
    | Arr(items: seq<Value>)
    | Obj(fields: map<string, Value>)

  /** Python's `bool(v)`: `None`, `False`, zero and empty containers are
      false, everything else is true. */
  predicate Truthy(v: Value) {
    match v
    case Null => false
    case Bool(b) => b
    case Num(n) => n != 0.0
    case Str(s) => |s| > 0
    case Arr(items) => |items| > 0
    case Obj(fields) => |fields| > 0
  }

  /** Python's `d.get(key, default)`. */
  function Get(fields: map<string, Value>, key: string, default: Value): (v: Value)
    ensures key in fields ==> v == fields[key]
    ensures key !in fields ==> v == default
  {
    if key in fields then fields[key] else default
  }

  /** Python's `d.setdefault(key, default)` seen through the dictionary it
      leaves behind: a present key keeps its value, a missing one gets
      `default`. */
  function SetDefault(fields: map<string, Value>, key: string, default: Value): (r: map<string, Value>)
    ensures r.Keys == fields.Keys + {key}
    ensures r[key] == Get(fields, key, default)
    ensures forall k :: k in fields ==> r[k] == fields[k]
  {
    if key in fields then fields else fields[key := default]
  }
}

=== FILE: store.dfy ===
/** The `DAT1` table as the two writes see it: one row per student ID,
    holding the answer, the serialised feedback and an optional opinion
    (SQL NULL is `None`). The server-maintained `time` column is not part of
    the model. */
module Store {
  import opened Wrappers

  /** One row of `DAT1`: `answer1`, `feedback1` and `opinion1`. */
  datatype Record = Record(answer: string, feedback: string, opinion: Option<string>)

  /** The table, keyed by the primary key `id`: at most one row per ID. */
  type Table = map<string, Record>

  /** `upsert_dat1`: `INSERT ... ON DUPLICATE KEY UPDATE` whose opinion is
      `COALESCE(new.opinion1, DAT1.opinion1)`. A fresh ID gets a new row as
      given. An existing row gets the new answer and feedback; its opinion is
      kept when the new one is `None` and replaced otherwise, by "" too. No
      other row changes. */
  function Upsert(t: Table, id: string, answer: string, feedback: string, opinion: Option<string>): (r: Table)
    ensures r.Keys == t.Keys + {id}
    ensures r[id].answer == answer && r[id].feedback == feedback
    ensures opinion.Some? ==> r[id].opinion == opinion
    ensures opinion.None? && id in t ==> r[id].opinion == t[id].opinion
    ensures opinion.None? && id !in t ==> r[id].opinion == None
    ensures forall k :: k in t && k != id ==> r[k] == t[k]
  {
    var kept := if id in t then t[id].opinion else None;
    var newOpinion := match opinion case Some(_) => opinion case None => kept;
    t[id := Record(answer, feedback, newOpinion)]
  }

  /** `update_opinion_only`: `UPDATE DAT1 SET opinion1 = ... WHERE id = ...`.
      The matching row gets the opinion and keeps its answer and feedback;
      with no matching row the table is unchanged, which is not an error.
      No other row changes and no row is added. */
  function UpdateOpinion(t: Table, id: string, opinion: string): (r: Table)
    ensures r.Keys == t.Keys
    ensures id in t ==>
      r[id].opinion == Some(opinion) && r[id].answer == t[id].answer && r[id].feedback == t[id].feedback
    ensures id !in t ==> r == t
    ensures forall k :: k in t && k != id ==> r[k] == t[k]
  {
    if id in t then t[id := t[id].(opinion := Some(opinion))] else t
  }

  /** Running the same upsert twice leaves the table as running it once. */
  lemma UpsertIdempotent(t: Table, id: string, answer: string, feedback: string, opinion: Option<string>)
    ensures Upsert(Upsert(t, id, answer, feedback, opinion), id, answer, feedback, opinion)
         == Upsert(t, id, answer, feedback, opinion)
  {
    var once := Upsert(t, id, answer, feedback, opinion);
    var twice := Upsert(once, id, answer, feedback, opinion);
    assert twice[id] == once[id];
  }

  /** Saving the same opinion twice leaves the table as saving it once. */
  lemma UpdateOpinionIdempotent(t: Table, id: string, opinion: string)
    ensures UpdateOpinion(UpdateOpinion(t, id, opinion), id, opinion) == UpdateOpinion(t, id, opinion)
  {
    var once := UpdateOpinion(t, id, opinion);
    var twice := UpdateOpinion(once, id, opinion);
    if id in t {
      assert twice[id] == once[id];
    }
  }

  /** Re-submissions: each pair is an answer and a feedback upserted for the
      same ID with the opinion absent. */
  function Resubmit(t: Table, id: string, answers: seq<(string, string)>): (r: Table)
    ensures r.Keys == if |answers| == 0 then t.Keys else t.Keys + {id}
    decreases |answers|
  {
    if |answers| == 0 then t
    else
      var (a, f) := answers[|answers| - 1];
      Upsert(Resubmit(t, id, answers[..|answers| - 1]), id, a, f, None)
  }

  /** However many times a student re-submits, a saved opinion survives and
      the row ends up with the last answer and feedback; every other row is
      untouched. */
  lemma {:induction false} ResubmitKeepsOpinion(t: Table, id: string, answers: seq<(string, string)>)
    requires id in t
    ensures Resubmit(t, id, answers)[id].opinion == t[id].opinion
    ensures |answers| > 0 ==>
      Resubmit(t, id, answers)[id].answer == answers[|answers| - 1].0
      && Resubmit(t, id, answers)[id].feedback == answers[|answers| - 1].1
    ensures forall k :: k in t && k != id ==> Resubmit(t, id, answers)[k] == t[k]
    decreases |answers|
  {
    if |answers| > 0 {
      ResubmitKeepsOpinion(t, id, answers[..|answers| - 1]);
    }
  }

  /** For a student who already has a row, saving an opinion and then
      re-submitting gives the same table as re-submitting and then saving
      the opinion: the two writes touch disjoint columns. */
  lemma UpdateOpinionCommutesWithResubmit(t: Table, id: string, answer: string, feedback: string, opinion: string)
    requires id in t
    ensures Upsert(UpdateOpinion(t, id, opinion), id, answer, feedback, None)
         == UpdateOpinion(Upsert(t, id, answer, feedback, None), id, opinion)
  {
    var left := Upsert(UpdateOpinion(t, id, opinion), id, answer, feedback, None);
    var right := UpdateOpinion(Upsert(t, id, answer, feedback, None), id, opinion);
    assert left[id] == right[id];
  }

  /** Without a row the order matters: an opinion saved before the first
      graded submission matches no row and is lost, and the row the
      submission then creates has no opinion. */
  lemma OpinionBeforeFirstSubmissionIsLost(t: Table, id: string, answer: string, feedback: string, opinion: string)
    requires id !in t
    ensures Upsert(UpdateOpinion(t, id, opinion), id, answer, feedback, None)[id].opinion == None
    ensures UpdateOpinion(Upsert(t, id, answer, feedback, None), id, opinion)[id].opinion == Some(opinion)
  {
  }
}

=== FILE: student_id.dfy ===
/** The student-ID format check `validate_student_id`: the string must be
    non-empty and `re.match(r"^\d{5}$", s)` must succeed. The match is written
    the way Python's regular-expression engine runs it: five digit tokens from
    position 0, then the `$` anchor, which in Python also accepts a position
    just before one final "\n". Digits are the ASCII digits '0'..'9'. */
module StudentId {
  import opened Wrappers
  import opened Text

  /** The repetition count in `\d{5}`. */
  const IdLength: nat := 5

  /** `\d`, restricted to ASCII. */
  predicate IsAsciiDigit(c: char) {
    '0' <= c <= '9'
  }

  /** Exactly five ASCII digits: the form every stored student ID has. */
  predicate IsFiveDigits(t: string) {
    |t| == IdLength && forall k :: 0 <= k < |t| ==> IsAsciiDigit(t[k])
  }

  /** Matches `n` digit tokens starting at `pos`; on success, the position
      after them. */
  function MatchDigits(s: string, pos: nat, n: nat): Option<nat>
    requires pos <= |s|
    decreases n
  {
    if n == 0 then Some(pos)
    else if pos < |s| && IsAsciiDigit(s[pos]) then MatchDigits(s, pos + 1, n - 1)
    else None
  }

  /** Python's `$` without MULTILINE: the end of the string, or the position
      of a "\n" that is the last character. */
  predicate AtEndAnchor(s: string, pos: nat) {
    pos == |s| || (pos == |s| - 1 && s[pos] == '\n')
  }

  /** `re.match(r"^\d{5}$", s)` succeeds. */
  predicate MatchesIdPattern(s: string) {
    match MatchDigits(s, 0, IdLength)
    case None => false
    case Some(p) => AtEndAnchor(s, p)
  }

  /** `validate_student_id(s)`: `bool(s and re.match(ID_REGEX, s))`. */
  predicate ValidateStudentId(s: string) {
    |s| > 0 && MatchesIdPattern(s)
  }

  /** The digit tokens succeed exactly when the next `n` characters exist
      and are all digits, and then they end `n` characters later. */
  lemma {:induction false} MatchDigitsSpec(s: string, pos: nat, n: nat)
    requires pos <= |s|
    ensures MatchDigits(s, pos, n).Some? <==>
      pos + n <= |s| && forall k :: pos <= k < pos + n ==> IsAsciiDigit(s[k])
    ensures MatchDigits(s, pos, n).Some? ==> MatchDigits(s, pos, n).value == pos + n
    decreases n
  {
    if n > 0 && pos < |s| && IsAsciiDigit(s[pos]) {
      MatchDigitsSpec(s, pos + 1, n - 1);
    }
  }

  /** The validator accepts exactly five ASCII digits, optionally followed by
      one "\n"; in particular it rejects the empty string, every other length
      and every string with a non-digit among its first five characters. */
  lemma ValidateStudentIdSpec(s: string)
    ensures ValidateStudentId(s) <==>
      IsFiveDigits(s) || (|s| == IdLength + 1 && IsFiveDigits(s[..IdLength]) && s[IdLength] == '\n')
    ensures !ValidateStudentId([])
  {
    MatchDigitsSpec(s, 0, IdLength);
    if |s| >= IdLength {
      assert forall k :: 0 <= k < IdLength ==> s[..IdLength][k] == s[k];
    }
  }

  /** Stripping an accepted ID leaves exactly its five digits: the trailing
      "\n" the pattern lets through is whitespace, and digits are not. */
  lemma StripValidId(s: string)
    requires ValidateStudentId(s)
    ensures Strip(s) == s[..IdLength]
    ensures IsFiveDigits(Strip(s)) && ValidateStudentId(Strip(s))
  {
    ValidateStudentIdSpec(s);
    var d := s[..IdLength];
    assert IsFiveDigits(d);
    assert Trimmed(d);
    if |s| == IdLength {
      StripOfPadded([], d, []);
      assert [] + d + [] == s;
    } else {
      StripOfPadded([], d, s[IdLength..]);
      assert [] + d + s[IdLength..] == s;
    }
    ValidateStudentIdSpec(d);
  }

  /** Sample inputs: the example ID the form shows, the trailing-newline quirk, and
      rejections for a short ID, a padded ID and two trailing newlines. */
  lemma ValidateStudentIdExamples()
    ensures ValidateStudentId("10130")
    ensures ValidateStudentId("10130\n")
    ensures !ValidateStudentId("1013")
    ensures !ValidateStudentId(" 10130")
    ensures !ValidateStudentId("10130 ")
    ensures !ValidateStudentId("10130\n\n")
    ensures !ValidateStudentId("1a130")
  {
    ValidateStudentIdSpec("10130");
    ValidateStudentIdSpec("10130\n");
    ValidateStudentIdSpec("1013");
    ValidateStudentIdSpec(" 10130");
    ValidateStudentIdSpec("10130 ");
    ValidateStudentIdSpec("10130\n\n");
    ValidateStudentIdSpec("1a130");
  }
}

=== FILE: text.dfy ===
/** The three Python `str` methods the grading app relies on: `strip()` with no
    argument, `find` and `rfind` of a single character. Strings are sequences
    of Unicode scalar values, so an index here is a Python code-point index. */
module Text {

  /** Python's `str.isspace()` for one character: the code points that
      `str.strip()` with no argument removes. */
  predicate IsSpace(c: char) {
    var n := c as int;
    || (0x09 <= n <= 0x0D)
    || (0x1C <= n <= 0x20)
    || n == 0x85 || n == 0xA0 || n == 0x1680
    || (0x2000 <= n <= 0x200A)
    || n == 0x2028 || n == 0x2029 || n == 0x202F || n == 0x205F || n == 0x3000
  }

  /** Every character of `t` is whitespace (vacuously true of ""). */
  predicate AllSpace(t: string) {
    forall k :: 0 <= k < |t| ==> IsSpace(t[k])
  }

  /** `t` neither starts nor ends with whitespace. */
  predicate Trimmed(t: string) {
    |t| > 0 ==> !IsSpace(t[0]) && !IsSpace(t[|t| - 1])
  }

  /** How many whitespace characters `s` starts with. */
  function LeadingSpaces(s: string): (n: nat)
    ensures n <= |s|
    ensures forall k :: 0 <= k < n ==> IsSpace(s[k])
    ensures n < |s| ==> !IsSpace(s[n])
    decreases |s|
  {
    if |s| > 0 && IsSpace(s[0]) then 1 + LeadingSpaces(s[1..]) else 0
  }

  /** Where the text of `s[..e]` ends once trailing whitespace is cut, never
      before `lo`. */
  function TrailingCut(s: string, lo: nat, e: nat): (r: nat)
    requires lo <= e <= |s|
    ensures lo <= r <= e
    ensures forall k :: r <= k < e ==> IsSpace(s[k])
    ensures r > lo ==> !IsSpace(s[r - 1])
    decreases e
  {
    if e > lo && IsSpace(s[e - 1]) then TrailingCut(s, lo, e - 1) else e
  }

  /** Python's `s.strip()`: `s` with its leading and trailing whitespace
      removed. The result is the slice of `s` between the first and the last
      non-whitespace character; what was cut on either side is whitespace, and
      it is empty exactly when `s` is blank. */
  function Strip(s: string): (r: string)
    ensures Trimmed(r)
    ensures LeadingSpaces(s) + |r| <= |s|
    ensures r == s[LeadingSpaces(s)..LeadingSpaces(s) + |r|]
    ensures AllSpace(s[..LeadingSpaces(s)]) && AllSpace(s[LeadingSpaces(s) + |r|..])
    ensures r == [] <==> AllSpace(s)
  {
    var i := LeadingSpaces(s);
    var j := TrailingCut(s, i, |s|);
    var r := s[i..j];
    assert r == [] ==> AllSpace(s) by {
      if r == [] {
        assert forall k :: 0 <= k < |s| ==> IsSpace(s[k]) by {
          forall k | 0 <= k < |s| ensures IsSpace(s[k]) {
            if k < i { } else { assert j == i; }
          }
        }
      }
    }
    r
  }

  /** Python's `not s.strip()`: the text is empty or only whitespace. */
  predicate IsBlank(s: string) {
    Strip(s) == []
  }

  lemma {:induction false} LeadingSpacesOfPadded(p: string, t: string)
    requires AllSpace(p)
    requires |t| > 0 && !IsSpace(t[0])
    ensures LeadingSpaces(p + t) == |p|
    decreases |p|
  {
    if |p| > 0 {
      assert (p + t)[1..] == p[1..] + t;
      LeadingSpacesOfPadded(p[1..], t);
    } else {
      assert (p + t)[0] == t[0];
    }
  }

  lemma {:induction false} TrailingCutOfPadded(s: string, lo: nat, m: nat, e: nat)
    requires lo < m <= e <= |s|
    requires !IsSpace(s[m - 1])
    requires forall k :: m <= k < e ==> IsSpace(s[k])
    ensures TrailingCut(s, lo, e) == m
    decreases e
  {
    if e > m {
      TrailingCutOfPadded(s, lo, m, e - 1);
    }
  }

  /** Cutting whitespace from both ends of a trimmed core gives the core back:
      `Strip` is determined by its contract. */
  lemma StripOfPadded(p: string, t: string, q: string)
    requires AllSpace(p) && AllSpace(q) && Trimmed(t)
    ensures Strip(p + t + q) == t
  {
    var s := p + t + q;
    if t == [] {
      assert AllSpace(s) by {
        forall k | 0 <= k < |s| ensures IsSpace(s[k]) {
          if k < |p| { assert s[k] == p[k]; } else { assert s[k] == q[k - |p|]; }
        }
      }
    } else {
      assert s == p + (t + q);
      LeadingSpacesOfPadded(p, t + q);
      assert forall k :: |p| + |t| <= k < |s| ==> IsSpace(s[k]) by {
        forall k | |p| + |t| <= k < |s| ensures IsSpace(s[k]) {
          assert s[k] == q[k - |p| - |t|];
        }
      }
      assert s[|p| + |t| - 1] == t[|t| - 1];
      TrailingCutOfPadded(s, |p|, |p| + |t|, |s|);
      assert s[|p|..|p| + |t|] == t;
    }
  }

  /** Stripping twice is stripping once. */
  lemma StripIdempotent(s: string)
    ensures Strip(Strip(s)) == Strip(s)
  {
    var t := Strip(s);
    StripOfPadded([], t, []);
    assert [] + t + [] == t;
  }

  /** Python's `s.find(c)`: the index of the first `c` in `s`, or -1 when
      `s` holds none. */
  function Find(s: string, c: char): (r: int)
    ensures -1 <= r < |s|
    ensures r == -1 ==> forall k :: 0 <= k < |s| ==> s[k] != c
    ensures 0 <= r ==> s[r] == c && forall k :: 0 <= k < r ==> s[k] != c
  {
    if |s| == 0 then -1
    else if s[0] == c then 0
    else
      var k := Find(s[1..], c);
      if k == -1 then -1 else k + 1
  }

  /** Python's `s.rfind(c)`: the index of the last `c` in `s`, or -1 when
      `s` holds none. */
  function RFind(s: string, c: char): (r: int)
    ensures -1 <= r < |s|
    ensures r == -1 ==> forall k :: 0 <= k < |s| ==> s[k] != c
    ensures 0 <= r ==> s[r] == c && forall k :: r < k < |s| ==> s[k] != c
  {
    if |s| == 0 then -1
    else if s[|s| - 1] == c then |s| - 1
    else RFind(s[..|s| - 1], c)
  }
}

=== FILE: wrappers.dfy ===
/** Failure-carrying datatypes shared by the model: an optional value and a
    success-or-error result that works with Dafny's `:-` operator. */
module Wrappers {

  /** A value that may be missing: Python's `None` versus a present value. */
  datatype Option<+T> = None | Some(value: T)

  /** The outcome of an operation that can raise: a value or an error. */
  datatype Result<+R, +E> = Success(value: R) | Failure(error: E) {

    predicate IsFailure() {
      Failure?
    }

    function PropagateFailure<U>(): Result<U, E>
      requires Failure?
    {
      Failure(error)
    }

    function Extract(): R
      requires Success?
    {
      value
    }
  }
}
